=== FILE: README.md ===
# MUN course auto-check: the change detector, in Dafny

This project models the core of `mun-course-auto-check.py`. The program watches course sections on a university registration portal. On each run it logs in once. Then, for every configured section in configuration order, it:

- reads the section's seat counts (capacity, actual, remaining);
- compares them with the snapshot persisted under the key `"{term}-{number}-{subject}-{crn}"`, but only when that key is already stored;
- sends a text when they differ, naming the section and carrying the stored and the fetched counts;
- overwrites the stored snapshot.

A guard (`safe_check`) logs whatever a run raises and returns. A scheduler repeats the guarded run, once at start and then every ten minutes.

The model is functional:

- The persisted store is a `map<string, Course>`.
- A run is a fold over the configured sections. It returns an `Outcome` holding the store, the alerts sent, the number of sections written and the error the run stopped with, if any. The store and the alerts are kept even when the run stops early, because the program's writes and texts are not undone.
- The browser and the text channel are oracles. Login success is a boolean. Each section gets a `Probe`: the fetch result (details, `None` for "no row with this crn", or a scrape failure), and whether a text sent for it goes through.
- The scheduler is a fold of the guarded run over a finite sequence of ticks.

Modules:

- `Wrappers` (wrappers.dfy): the `Option` type.
- `Courses` (courses.dfy): the data, the key and the structural comparison.
- `Detector` (detector.dfy): the comparison with a possibly absent snapshot.
- `Message` (message.dfy): the alert record and its text.
- `Cycle` (cycle.dfy): one section and one run.
- `Scheduler` (scheduler.dfy): the guard and the repeated runs.

The comparison policy is a parameter, `Detector.Policy`:

- `AsWritten` follows the code. Comparing with a `None` snapshot raises, because `.dict()` is called on `None`. A text that cannot be sent raises too. Both stop the run before the section's write.
- `Intended` compares absent snapshots as values and treats sending as best effort. This is the corrected behaviour described under "## Findings".

Every run-level and schedule-level property below is proved for both policies unless it names one.

Three places where the code does something other than what it evidently means to do. The model follows the code in each:

- An absent snapshot is stored like any other, which suggests it was meant to be compared as a value ("absent" then "present" would alert). The comparison raises instead.
- `send_text` has a branch that skips sending when no client is configured. That branch is never reached, because the unbound name raises `NameError` first.
- A failed send is not caught. It stops the run before that section's write.

## Model

| member | source | states |
|---|---|---|
| Courses.DetailsDifferent | mun-course-auto-check.py:95-96 | two snapshots are "not different" exactly when capacity, actual and remaining all agree |
| Courses.DifferentSymmetric | mun-course-auto-check.py:95-96 | the difference test does not depend on argument order |
| Courses.DifferentIrreflexive | mun-course-auto-check.py:95-96 | a snapshot never differs from itself |
| Courses.KeyInjective | mun-course-auto-check.py:126-128 | within one term, the key identifies the section when number, subject and crn contain no '-' |
| Courses.KeyAmbiguousWithSeparator | mun-course-auto-check.py:126-128 | without that restriction, two different sections can share a key |
| Detector.Compare | mun-course-auto-check.py:95-96 | as written, the comparison raises exactly when either snapshot is absent; when it returns, "changed" means the snapshots differ, fieldwise when both are present; the intended comparison never raises |
| Message.IntTextRoundTrip | mun-course-auto-check.py:102 | a count printed in decimal reads back as the same count, negative ones included |
| Message.DetailsTextRoundTrip | mun-course-auto-check.py:102 | the printed form of a snapshot ("capacity=.. actual=.. remaining=.." or "None") reads back as that snapshot |
| Message.TextRoundTrip | mun-course-auto-check.py:99-104 | the alert text starts with the section's subject, number and crn, and both the stored and the fetched snapshots can be read back from it, in that order |
| Cycle.Step | mun-course-auto-check.py:130-146 | one section: a write follows a successful fetch and replaces only this key; a new key never alerts; an alert carries stored then fetched details, which differ; a known key whose details changed alerts when the comparison and the send succeed; unchanged details never alert and the entry is still overwritten; as written, an absent snapshot on either side raises, and a change whose text cannot be sent raises before the write; only as written does a failed send raise |
| Cycle.Run | mun-course-auto-check.py:125-147 | the loop writes at most every section and completes exactly when it writes them all; it stops at the first section whose processing raises, with the store the earlier sections left; under the intended policy only a scrape failure stops it |
| Cycle.RunFrame | mun-course-auto-check.py:125-146 | the loop never removes a key, and every key that no written section has is left as it was (a key shared with a written section may change even if another section with that key was not reached) |
| Cycle.RunWrites | mun-course-auto-check.py:130-146 | every written section was fetched, and its key holds the details fetched for the last written section with that key |
| Cycle.RunAlerts | mun-course-auto-check.py:125-142 | at most one alert per written section, in configuration order |
| Cycle.RunAlertsPresent | mun-course-auto-check.py:137-142 | as written, every alert carries details on both sides |
| Cycle.StopKeepsPrefix | mun-course-auto-check.py:125-146 | a run that stops early leaves exactly the store and alerts of a completed run over the sections it got through |
| Cycle.FirstObservationSilent | mun-course-auto-check.py:137-146 | sections whose distinct keys are not yet stored never alert, whatever is fetched, and only a scrape failure can stop them |
| Cycle.StepLocal | mun-course-auto-check.py:137-146 | whether a section raises depends on the store only through that section's own entry |
| Cycle.BlockedSectionStopsRun | mun-course-auto-check.py:125-146 | when no earlier section shares its key, a section that raises stops the run at it or earlier, and its entry is left unchanged |
| Cycle.CheckCycle | mun-course-auto-check.py:107-151 | a failed login is the only login error and leaves the store untouched with no alert; a run completes exactly when login succeeds and every section is written; keys of unconfigured sections are unchanged; under the intended policy, a run whose login and fetches succeed completes |
| Cycle.CycleEffects | mun-course-auto-check.py:125-147 | a completed run stores each section's fetched details under its key (the last section with that key wins); alerts follow configuration order, at most one per written section |
| Cycle.SeatOpeningAlertsOnce | mun-course-auto-check.py:137-146 | a stored (30,30,0) followed by a fetched (30,29,1) produces exactly one alert, stored first and fetched second, and the new snapshot is stored |
| Scheduler.SafeCheck | mun-course-auto-check.py:154-158 | the guarded run always returns and logs at most one error; a failed login is logged and changes nothing; only configured sections' entries change and none disappears; a run that logs nothing has stored every section's fetched details, with at most one alert per section; under the intended policy, a run whose login and fetches succeed logs nothing |
| Scheduler.SafeCheckLogsFailures | mun-course-auto-check.py:125-158 | after a successful login, a guarded run that logs nothing got past every section that is the first with its key; one that logs an error left exactly what a completed run over some prefix of the sections leaves, and the next section raises that error against that store |
| Scheduler.Schedule | mun-course-auto-check.py:154-170 | each run logs at most one error; no key ever disappears, and keys of unconfigured sections keep their entries |
| Scheduler.ScheduleSingle | mun-course-auto-check.py:154-167 | a schedule of one tick is exactly one guarded run |
| Scheduler.ScheduleAppend | mun-course-auto-check.py:161-170 | running two stretches of ticks one after the other is running the second from the store the first left, with both stretches' alerts and errors in order, so each run starts from the store the previous one left |
| Scheduler.ScheduleLoginsFail | mun-course-auto-check.py:107-170 | if every login fails, each run logs one login failure and nothing is written or sent |
| Scheduler.ScheduleIntendedClean | mun-course-auto-check.py:125-170 | under the intended policy, runs whose login and fetches succeed log nothing |
| Scheduler.BlockedSectionWedges | mun-course-auto-check.py:137-158 | when no earlier section shares its key, a section that raises against its stored entry on every tick makes every run fail and keeps that entry |
| Scheduler.AbsentSnapshotWedges | mun-course-auto-check.py:96-146 | as written, once a section is stored without details, every later run fails and that entry never changes |
| Scheduler.FailedSendWedges | mun-course-auto-check.py:59-75 | as written, when no earlier section shares its key and texts cannot be sent, a changed section makes every run fail before its write, so the stale snapshot stays |
| Scheduler.NotFoundThenFoundFails | mun-course-auto-check.py:137-146 | as written, a section not found on the first run and found on the second makes the second run fail at the comparison, leaving the entry without details |
| Scheduler.IntendedRunsRecover | mun-course-auto-check.py:137-146 | under the intended policy, runs whose login and fetches succeed complete, and each key ends up holding the latest run's details, whatever was stored before |

## Left out

- Browser automation is left out: login form filling, page navigation and table scraping (`get_course_details`, lines 78-92 and 113-123). Login success is a boolean input and each fetch is an input. Any exception raised before the loop is modelled as the login failing.
- The Twilio client and the sending itself (lines 54-75) are left out. A text that goes through is an `Alert` record. One that raises is a `false` delivery flag.
- Configuration loading from TOML and the module-level globals (lines 35-56) are left out. The configuration is an immutable `Config` value holding the term and the ordered sections. Credentials play no part in the model.
- `shelve` persistence, its pickling and its flushing (line 112) are left out. The store is a map and a write is a map update.
- Console and error-log printing is left out. The error log is the sequence of `CycleError` values.
- The assignment `course.details = course_details` (line 135) changes the in-memory configuration object. Only its persisted copy matters to later runs, so it is not modelled separately.
- The URL builders (lines 14-19) are left out: they are constant string templates.
- Scheduler.Schedule: models a finite sequence of ticks, not the endless loop, the ten-minute period or the sleeping (lines 161-170).
- Courses.KeyInjective: the key identifies a section only when its fields contain no '-'. The program does not check this.

## Findings

| source | as written | input that shows it | evidently intended | confidence | as-written member | corrected member |
|---|---|---|---|---|---|---|
| mun-course-auto-check.py:96-146 | a stored snapshot whose details are `None` is compared with `.dict()`, which raises; the run stops before the write, so the entry stays `None` and every later run stops there, and the sections after it are never checked again | a section whose crn is not on the portal on one run (stored with `None`), then any later run | absent details are compared as a value: absent then absent does not alert, absent then present alerts, and the write always happens | not executed; high | Scheduler.AbsentSnapshotWedges | Detector.Compare |
| mun-course-auto-check.py:59-67 | with no `notification.twilio` section, `twilio_client` is never bound, so `send_text` raises `NameError` instead of taking its "no twilio_client" branch; the run stops before the write, so the same change is detected and fails again on every run | configuration without Twilio, stored (30,30,0), fetched (30,29,1) on every run | skip the text and carry on, writing the new snapshot | not executed; high | Scheduler.FailedSendWedges | Scheduler.IntendedRunsRecover |

=== FILE: courses.dfy ===
/** Course identities, seat-count snapshots, the persisted store and its key. */
module Courses {
  import opened Wrappers

  /** Seat counts of one section as read from the portal: total seats, seats
      taken, and seats open (negative when the section is over-enrolled). */
  datatype CourseDetails = CourseDetails(capacity: int, actual: int, remaining: int)

  /** One configured section; the term comes from the configuration. */
  datatype CourseId = CourseId(number: string, subject: string, crn: string)

  /** The record persisted per key: the section and the details fetched for it
      by the latest cycle that reached its write (None when the section was not
      found on the portal). */
  datatype Course = Course(id: CourseId, details: Option<CourseDetails>)

  /** The persisted store: key to last snapshot. */
  type Store = map<string, Course>

  /** The persistence key "{term}-{number}-{subject}-{crn}". */
  function Key(term: string, c: CourseId): string
  {
    term + "-" + c.number + "-" + c.subject + "-" + c.crn
  }

  /** True when both stores hold the same entry for `k`, or neither holds one. */
  predicate SameEntry(s: Store, t: Store, k: string)
  {
    (k in s <==> k in t) && (k in s ==> s[k] == t[k])
  }

  /** Two snapshots differ unless all three counts agree. */
  function DetailsDifferent(a: CourseDetails, b: CourseDetails): (r: bool)
    ensures !r <==> a.capacity == b.capacity && a.actual == b.actual && a.remaining == b.remaining
  {
    a != b
  }

  lemma DifferentSymmetric(a: CourseDetails, b: CourseDetails)
    ensures DetailsDifferent(a, b) == DetailsDifferent(b, a)
  {
  }

  lemma DifferentIrreflexive(a: CourseDetails)
    ensures !DetailsDifferent(a, a)
  {
  }

  /** None of the section's fields contains the key separator. */
  predicate Plain(c: CourseId)
  {
    '-' !in c.number && '-' !in c.subject && '-' !in c.crn
  }

  /** Splitting at the first separator is unambiguous when the heads hold none. */
  lemma SplitAtSeparator(a: string, b: string, c: string, d: string)
    requires '-' !in a && '-' !in c
    requires a + "-" + b == c + "-" + d
    ensures a == c && b == d
  {
    var s := a + "-" + b;
    var t := c + "-" + d;
    assert s[|a|] == '-' && t[|c|] == '-';
    assert |a| == |c|;
    assert a == s[..|a|] == c;
    assert b == s[|a| + 1..] == d;
  }

  /** Within one term, keys of separator-free sections identify the section. */
  lemma KeyInjective(term: string, c1: CourseId, c2: CourseId)
    requires Plain(c1) && Plain(c2)
    ensures Key(term, c1) == Key(term, c2) <==> c1 == c2
  {
    if Key(term, c1) == Key(term, c2) {
      var p := term + "-";
      var r1 := c1.number + "-" + (c1.subject + "-" + c1.crn);
      var r2 := c2.number + "-" + (c2.subject + "-" + c2.crn);
      assert Key(term, c1) == p + r1;
      assert Key(term, c2) == p + r2;
      assert r1 == (p + r1)[|p|..];
      assert r2 == (p + r2)[|p|..];
      SplitAtSeparator(c1.number, c1.subject + "-" + c1.crn, c2.number, c2.subject + "-" + c2.crn);
      SplitAtSeparator(c1.subject, c1.crn, c2.subject, c2.crn);
    }
  }

  /** Without the separator restriction, two different sections can share a key. */
  lemma KeyAmbiguousWithSeparator()
    ensures Key("202301", CourseId("1-2", "X", "9")) == Key("202301", CourseId("1", "2-X", "9"))
    ensures CourseId("1-2", "X", "9") != CourseId("1", "2-X", "9")
  {
  }
}

=== FILE: cycle.dfy ===
/** One check cycle: log in once, then for every configured section in
    order fetch its details, compare them with the stored snapshot, alert on
    a change, and overwrite the snapshot. */
module Cycle {
  import opened Wrappers
  import opened Courses
  import opened Detector
  import opened Message

  /** The read-only configuration: the term and the sections, in order. */
  datatype Config = Config(term: string, courses: seq<CourseId>)

  /** What the portal gave for one section: its details (None when no row of
      the table carries the crn), or a failure while reading the page. */
  datatype Fetch = Fetched(details: Option<CourseDetails>) | ScrapeFailed

  /** The outside world as seen by one section in one cycle: the fetch, and
      whether a text sent for it would go through. */
  datatype Probe = Probe(fetch: Fetch, delivered: bool)

  /** Why a cycle stopped early; every error but the login names the key of
      the section being processed. */
  datatype CycleError =
    | LoginFailed
    | FetchFailed(key: string)
    | CompareFailed(key: string)
    | SendFailed(key: string)

  /** The effect of processing one section: the store after its write and the
      alert it sent, or the error raised before the write. */
  datatype StepResult = Wrote(store: Store, alert: Option<Alert>) | Raised(error: CycleError)

  /** The effect of a cycle or part of one. The store and the alerts are
      effects that stay even when the cycle stops early; `written` counts the
      sections whose write happened. */
  datatype Outcome = Outcome(store: Store, alerts: seq<Alert>, written: nat, error: Option<CycleError>)

  /** Processing of one section. */
  function Step(policy: Policy, term: string, c: CourseId, p: Probe, store: Store): (r: StepResult)
    // a write follows a successful fetch and replaces this section's entry only
    ensures r.Wrote? ==> p.fetch.Fetched? && r.store == store[Key(term, c) := Course(c, p.fetch.details)]
    ensures r.Raised? && r.error.FetchFailed? <==> p.fetch.ScrapeFailed?
    ensures r.Raised? ==> !r.error.LoginFailed? && r.error.key == Key(term, c)
    // the first observation of a key never alerts and is always written
    ensures Key(term, c) !in store && p.fetch.Fetched? ==> r.Wrote? && r.alert.None?
    // an alert carries the stored details, then the fetched ones, and they differ
    ensures r.Wrote? && r.alert.Some? ==>
      && Key(term, c) in store
      && p.delivered
      && r.alert.value == Alert(c, store[Key(term, c)].details, p.fetch.details)
      && store[Key(term, c)].details != p.fetch.details
    // a change of known details alerts whenever it can be compared and sent
    ensures
      (&& Key(term, c) in store && p.fetch.Fetched? && p.delivered
       && Compare(policy, p.fetch.details, store[Key(term, c)].details) == Some(true))
      ==> r.Wrote? && r.alert.Some?
    // as written, a comparison with an absent snapshot raises
    ensures policy == AsWritten && Key(term, c) in store && p.fetch.Fetched? ==>
      (r.Raised? && r.error.CompareFailed? <==> p.fetch.details.None? || store[Key(term, c)].details.None?)
    // unchanged details never alert, and the entry is still overwritten
    ensures
      (&& Key(term, c) in store && p.fetch.Fetched?
       && Compare(policy, p.fetch.details, store[Key(term, c)].details) == Some(false))
      ==> r == Wrote(store[Key(term, c) := Course(c, p.fetch.details)], None)
    // as written, a change whose text cannot be sent raises before the write
    ensures
      (&& policy == AsWritten && Key(term, c) in store && p.fetch.Fetched? && !p.delivered
       && Compare(policy, p.fetch.details, store[Key(term, c)].details) == Some(true))
      ==> r == Raised(SendFailed(Key(term, c)))
    ensures r.Raised? && r.error.SendFailed? ==> policy == AsWritten && !p.delivered
    ensures policy == Intended && p.fetch.Fetched? ==> r.Wrote?
  {
    var key := Key(term, c);
    match p.fetch
    case ScrapeFailed => Raised(FetchFailed(key))
    case Fetched(current) =>
      var written := store[key := Course(c, current)];
      if key !in store then Wrote(written, None)
      else
        var previous := store[key].details;
        match Compare(policy, current, previous)
        case None => Raised(CompareFailed(key))
        case Some(changed) =>
          if !changed then Wrote(written, None)
          else if p.delivered then Wrote(written, Some(Alert(c, previous, current)))
          else if policy == AsWritten then Raised(SendFailed(key))
          else Wrote(written, None)
  }

  function AlertsOf(a: Option<Alert>): seq<Alert>
  {
    match a
    case None => []
    case Some(x) => [x]
  }

  /** The sections the alerts are about, in the order sent. */
  function Alerted(alerts: seq<Alert>): seq<CourseId>
  {
    seq(|alerts|, i requires 0 <= i < |alerts| => alerts[i].course)
  }

  /** `xs` is obtained from `ys` by dropping elements. */
  predicate Subsequence<T(==)>(xs: seq<T>, ys: seq<T>)
    decreases |ys|
  {
    || |xs| == 0
    || (&& |ys| > 0
        && ((xs[0] == ys[0] && Subsequence(xs[1..], ys[1..])) || Subsequence(xs, ys[1..])))
  }

  /** The keys of the first `n` sections. */
  function KeysOf(term: string, cs: seq<CourseId>, n: nat): set<string>
    requires n <= |cs|
  {
    set i | 0 <= i < n :: Key(term, cs[i])
  }

  /** Section `i` is the last of the first `n` to write its key. */
  predicate LastWriter(term: string, cs: seq<CourseId>, n: nat, i: nat)
    requires i < n <= |cs|
  {
    forall j :: i < j < n ==> Key(term, cs[j]) != Key(term, cs[i])
  }

  /** The loop over the sections, from a store and the probes of each. */
  function Run(policy: Policy, term: string, cs: seq<CourseId>, ps: seq<Probe>, store: Store): (r: Outcome)
    requires |ps| == |cs|
    ensures r.written <= |cs|
    ensures r.error.None? <==> r.written == |cs|
    ensures r.error.Some? ==> !r.error.value.LoginFailed?
    ensures policy == Intended ==> r.error.None? || r.error.value.FetchFailed?
    // the loop stops at the first section whose processing raises
    ensures r.error.Some? ==>
      r.written < |cs| && Step(policy, term, cs[r.written], ps[r.written], r.store) == Raised(r.error.value)
    decreases |cs|
  {
    if |cs| == 0 then Outcome(store, [], 0, None)
    else
      match Step(policy, term, cs[0], ps[0], store)
      case Raised(e) => Outcome(store, [], 0, Some(e))
      case Wrote(next, a) =>
        var rest := Run(policy, term, cs[1..], ps[1..], next);
        Outcome(rest.store, AlertsOf(a) + rest.alerts, rest.written + 1, rest.error)
  }

  /** A cycle only adds keys, and only those of the sections it wrote. */
  lemma {:induction false} RunFrame(policy: Policy, term: string, cs: seq<CourseId>, ps: seq<Probe>, store: Store)
    requires |ps| == |cs|
    ensures var r := Run(policy, term, cs, ps, store);
      && store.Keys <= r.store.Keys
      && forall k :: k !in KeysOf(term, cs, r.written) ==> SameEntry(store, r.store, k)
    decreases |cs|
  {
    if |cs| > 0 && Step(policy, term, cs[0], ps[0], store).Wrote? {
      var next := Step(policy, term, cs[0], ps[0], store).store;
      var rest := Run(policy, term, cs[1..], ps[1..], next);
      RunFrame(policy, term, cs[1..], ps[1..], next);
      assert forall i :: 1 <= i <= rest.written ==> Key(term, cs[i]) == Key(term, cs[1..][i - 1]);
      assert KeysOf(term, cs, rest.written + 1) == {Key(term, cs[0])} + KeysOf(term, cs[1..], rest.written);
    }
  }

  /** Every section the cycle got through was fetched. */
  lemma {:induction false} RunFetched(policy: Policy, term: string, cs: seq<CourseId>, ps: seq<Probe>, store: Store)
    requires |ps| == |cs|
    ensures forall i :: 0 <= i < Run(policy, term, cs, ps, store).written ==> ps[i].fetch.Fetched?
    decreases |cs|
  {
    if |cs| > 0 && Step(policy, term, cs[0], ps[0], store).Wrote? {
      var next := Step(policy, term, cs[0], ps[0], store).store;
      RunFetched(policy, term, cs[1..], ps[1..], next);
      forall i | 1 <= i < Run(policy, term, cs, ps, store).written
        ensures ps[i].fetch.Fetched?
      {
        assert ps[i] == ps[1..][i - 1];
      }
    }
  }

  /** Every section the cycle got through was fetched, and its key now holds
      the details fetched for the last section sharing that key. */
  lemma {:induction false} RunWrites(policy: Policy, term: string, cs: seq<CourseId>, ps: seq<Probe>, store: Store)
    requires |ps| == |cs|
    ensures var r := Run(policy, term, cs, ps, store);
      && (forall i :: 0 <= i < r.written ==> ps[i].fetch.Fetched?)
      && (forall i :: 0 <= i < r.written && LastWriter(term, cs, r.written, i) ==>
            Key(term, cs[i]) in r.store && r.store[Key(term, cs[i])] == Course(cs[i], ps[i].fetch.details))
    decreases |cs|
  {
    RunFetched(policy, term, cs, ps, store);
    if |cs| > 0 && Step(policy, term, cs[0], ps[0], store).Wrote? {
      var next := Step(policy, term, cs[0], ps[0], store).store;
      var r := Run(policy, term, cs, ps, store);
      forall i | 0 <= i < r.written && LastWriter(term, cs, r.written, i)
        ensures Key(term, cs[i]) in r.store && r.store[Key(term, cs[i])] == Course(cs[i], ps[i].fetch.details)
      {
        if i == 0 {
          FirstWriteSurvives(policy, term, cs, ps, store);
        } else {
          LastWriterInTail(term, cs, r.written, i);
          RunWrites(policy, term, cs[1..], ps[1..], next);
        }
      }
    }
  }

  /** The first section's write survives the rest of the cycle when no later
      written section shares its key. */
  lemma FirstWriteSurvives(policy: Policy, term: string, cs: seq<CourseId>, ps: seq<Probe>, store: Store)
    requires |ps| == |cs| && |cs| > 0
    requires Step(policy, term, cs[0], ps[0], store).Wrote?
    requires LastWriter(term, cs, Run(policy, term, cs, ps, store).written, 0)
    ensures Key(term, cs[0]) in Run(policy, term, cs, ps, store).store
    ensures Run(policy, term, cs, ps, store).store[Key(term, cs[0])] == Course(cs[0], ps[0].fetch.details)
  {
    var next := Step(policy, term, cs[0], ps[0], store).store;
    LastWriterInTail(term, cs, Run(policy, term, cs, ps, store).written, 0);
    RunFrame(policy, term, cs[1..], ps[1..], next);
  }

  /** Seen from the sections after the first: the first section, if it is the
      last writer of its key, shares its key with none of them, and any later
      last writer stays one. */
  lemma LastWriterInTail(term: string, cs: seq<CourseId>, n: nat, i: nat)
    requires i < n <= |cs|
    requires LastWriter(term, cs, n, i)
    ensures i == 0 ==> Key(term, cs[0]) !in KeysOf(term, cs[1..], n - 1)
    ensures i > 0 ==> cs[1..][i - 1] == cs[i] && LastWriter(term, cs[1..], n - 1, i - 1)
  {
    if i > 0 {
      forall j | i - 1 < j < n - 1
        ensures Key(term, cs[1..][j]) != Key(term, cs[1..][i - 1])
      {
        assert Key(term, cs[j + 1]) != Key(term, cs[i]);
      }
    }
  }

  /** At most one alert per section, in configuration order. */
  lemma {:induction false} RunAlerts(policy: Policy, term: string, cs: seq<CourseId>, ps: seq<Probe>, store: Store)
    requires |ps| == |cs|
    ensures var r := Run(policy, term, cs, ps, store);
      |r.alerts| <= r.written && Subsequence(Alerted(r.alerts), cs[..r.written])
    decreases |cs|
  {
    if |cs| > 0 {
      var step := Step(policy, term, cs[0], ps[0], store);
      if step.Wrote? {
        var r := Run(policy, term, cs, ps, store);
        var rest := Run(policy, term, cs[1..], ps[1..], step.store);
        assert r == Outcome(rest.store, AlertsOf(step.alert) + rest.alerts, rest.written + 1, rest.error);
        RunAlerts(policy, term, cs[1..], ps[1..], step.store);
        assert cs[..r.written] == [cs[0]] + cs[1..][..rest.written];
        AlertsOfSection(cs[0], step.alert, rest.alerts, cs[1..][..rest.written]);
      }
    }
  }

  /** As written, an alert always carries details on both sides. */
  lemma {:induction false} RunAlertsPresent(term: string, cs: seq<CourseId>, ps: seq<Probe>, store: Store)
    requires |ps| == |cs|
    ensures forall a :: a in Run(AsWritten, term, cs, ps, store).alerts ==> a.previous.Some? && a.current.Some?
    decreases |cs|
  {
    if |cs| > 0 {
      var step := Step(AsWritten, term, cs[0], ps[0], store);
      if step.Wrote? {
        var rest := Run(AsWritten, term, cs[1..], ps[1..], step.store);
        assert Run(AsWritten, term, cs, ps, store).alerts == AlertsOf(step.alert) + rest.alerts;
        RunAlertsPresent(term, cs[1..], ps[1..], step.store);
      }
    }
  }

  /** Prepending a section and at most one alert about it keeps the alerts a
      subsequence of the sections. */
  lemma AlertsOfSection(c: CourseId, a: Option<Alert>, alerts: seq<Alert>, cs: seq<CourseId>)
    requires a.Some? ==> a.value.course == c
    requires Subsequence(Alerted(alerts), cs)
    ensures Subsequence(Alerted(AlertsOf(a) + alerts), [c] + cs)
  {
    assert ([c] + cs)[1..] == cs;
    if a.Some? {
      assert Alerted(AlertsOf(a) + alerts)[1..] == Alerted(alerts);
    } else {
      assert AlertsOf(a) + alerts == alerts;
    }
  }

  /** The part of a cycle that stopped early is exactly a completed cycle over
      the sections it got through: its store and alerts are what that prefix
      leaves. */
  lemma {:induction false} StopKeepsPrefix(policy: Policy, term: string, cs: seq<CourseId>, ps: seq<Probe>, store: Store)
    requires |ps| == |cs|
    ensures var r := Run(policy, term, cs, ps, store);
      Run(policy, term, cs[..r.written], ps[..r.written], store) == Outcome(r.store, r.alerts, r.written, None)
    decreases |cs|
  {
    var r := Run(policy, term, cs, ps, store);
    if |cs| > 0 && Step(policy, term, cs[0], ps[0], store).Wrote? {
      var next := Step(policy, term, cs[0], ps[0], store).store;
      var rest := Run(policy, term, cs[1..], ps[1..], next);
      StopKeepsPrefix(policy, term, cs[1..], ps[1..], next);
      assert cs[..r.written][1..] == cs[1..][..rest.written];
      assert ps[..r.written][1..] == ps[1..][..rest.written];
    }
  }

  /** Sections whose keys are new to the store and distinct from each other
      never alert, whatever is fetched and whether or not a text would go
      through; only a failed fetch can stop such a cycle. */
  lemma {:induction false} FirstObservationSilent(policy: Policy, term: string, cs: seq<CourseId>, ps: seq<Probe>, store: Store)
    requires |ps| == |cs|
    requires forall i :: 0 <= i < |cs| ==> Key(term, cs[i]) !in store
    requires forall i, j :: 0 <= i < j < |cs| ==> Key(term, cs[i]) != Key(term, cs[j])
    ensures var r := Run(policy, term, cs, ps, store);
      r.alerts == [] && (r.error.None? || r.error.value.FetchFailed?)
    decreases |cs|
  {
    if |cs| > 0 && Step(policy, term, cs[0], ps[0], store).Wrote? {
      var next := Step(policy, term, cs[0], ps[0], store).store;
      forall i | 0 <= i < |cs[1..]|
        ensures Key(term, cs[1..][i]) !in next
      {
        assert Key(term, cs[1..][i]) == Key(term, cs[i + 1]) != Key(term, cs[0]);
      }
      FirstObservationSilent(policy, term, cs[1..], ps[1..], next);
    }
  }

  /** What happens to a section depends on the store only through its own entry. */
  lemma StepLocal(policy: Policy, term: string, c: CourseId, p: Probe, s: Store, t: Store)
    requires SameEntry(s, t, Key(term, c))
    ensures Step(policy, term, c, p, s).Raised? == Step(policy, term, c, p, t).Raised?
  {
  }

  /** A section whose processing raises blocks the cycle: the cycle stops at it
      or earlier, and its entry is left as it was. */
  lemma {:induction false} BlockedSectionStopsRun(policy: Policy, term: string, cs: seq<CourseId>, ps: seq<Probe>, store: Store, i: nat)
    requires |ps| == |cs|
    requires i < |cs|
    requires forall j :: 0 <= j < i ==> Key(term, cs[j]) != Key(term, cs[i])
    requires Step(policy, term, cs[i], ps[i], store).Raised?
    ensures var r := Run(policy, term, cs, ps, store);
      r.error.Some? && r.written <= i && SameEntry(store, r.store, Key(term, cs[i]))
    decreases i
  {
    if Step(policy, term, cs[0], ps[0], store).Wrote? {
      var next := Step(policy, term, cs[0], ps[0], store).store;
      assert SameEntry(store, next, Key(term, cs[i]));
      StepLocal(policy, term, cs[i], ps[i], store, next);
      assert cs[1..][i - 1] == cs[i] && ps[1..][i - 1] == ps[i];
      BlockedSectionStopsRun(policy, term, cs[1..], ps[1..], next, i - 1);
    }
  }

  /** One full cycle: the login, then the loop. */
  function CheckCycle(policy: Policy, config: Config, loginOk: bool, probes: seq<Probe>, store: Store): (r: Outcome)
    requires |probes| == |config.courses|
    ensures r.error == Some(LoginFailed) <==> !loginOk
    // a failed login leaves the store untouched and sends nothing
    ensures !loginOk ==> r.store == store && r.alerts == [] && r.written == 0
    ensures r.written <= |config.courses|
    ensures r.error.None? <==> loginOk && r.written == |config.courses|
    ensures store.Keys <= r.store.Keys
    ensures forall k :: k !in KeysOf(config.term, config.courses, |config.courses|) ==> SameEntry(store, r.store, k)
    ensures policy == Intended && loginOk && (forall p :: p in probes ==> p.fetch.Fetched?) ==> r.error.None?
  {
    if !loginOk then Outcome(store, [], 0, Some(LoginFailed))
    else
      var r := Run(policy, config.term, config.courses, probes, store);
      RunFrame(policy, config.term, config.courses, probes, store);
      assert KeysOf(config.term, config.courses, r.written) <= KeysOf(config.term, config.courses, |config.courses|);
      r
  }

  /** What a cycle leaves behind: when it completes, every section's key holds
      the details fetched for the last section with that key; in any case the
      alerts follow configuration order, at most one per written section. */
  lemma CycleEffects(policy: Policy, config: Config, loginOk: bool, probes: seq<Probe>, store: Store)
    requires |probes| == |config.courses|
    ensures var r := CheckCycle(policy, config, loginOk, probes, store);
      && (r.error.None? ==>
            forall i :: 0 <= i < |config.courses| && LastWriter(config.term, config.courses, |config.courses|, i) ==>
              var k := Key(config.term, config.courses[i]);
              probes[i].fetch.Fetched? && k in r.store && r.store[k] == Course(config.courses[i], probes[i].fetch.details))
      && |r.alerts| <= r.written
      && Subsequence(Alerted(r.alerts), config.courses[..r.written])
  {
    if loginOk {
      RunWrites(policy, config.term, config.courses, probes, store);
      RunAlerts(policy, config.term, config.courses, probes, store);
    }
  }

  /** A section that was full and now has one seat open alerts exactly once,
      with the full snapshot first, and the open one is stored. */
  lemma SeatOpeningAlertsOnce(policy: Policy)
    ensures var c := CourseId("1000", "COMP", "12345");
      var before := Course(c, Some(CourseDetails(30, 30, 0)));
      var now := Some(CourseDetails(30, 29, 1));
      var r := CheckCycle(policy, Config("202301", [c]), true, [Probe(Fetched(now), true)],
                          map[Key("202301", c) := before]);
      && r.error.None?
      && r.alerts == [Alert(c, before.details, now)]
      && r.store == map[Key("202301", c) := Course(c, now)]
  {
  }
}

=== FILE: detector.dfy ===
/** The change detector: the comparison of freshly fetched details with the
    stored snapshot. */
module Detector {
  import opened Wrappers
  import opened Courses

  /** `AsWritten` follows the program, where comparing with an absent snapshot
      raises and a failed send aborts the cycle; `Intended` compares absent
      snapshots as values and treats sending as best effort. */
  datatype Policy = AsWritten | Intended

  /** Some(changed), or None where the comparison raises. */
  function Compare(policy: Policy, current: Option<CourseDetails>, previous: Option<CourseDetails>): (r: Option<bool>)
    ensures policy == AsWritten ==> (r.None? <==> current.None? || previous.None?)
    ensures policy == Intended ==> r.Some?
    ensures r.Some? ==> (r.value <==> current != previous)
    ensures r.Some? && current.Some? && previous.Some? ==>
      (r.value <==> DetailsDifferent(current.value, previous.value))
  {
    match policy
    case AsWritten =>
      if current.None? || previous.None? then None
      else Some(DetailsDifferent(current.value, previous.value))
    case Intended => Some(current != previous)
  }
}

=== FILE: message.dfy ===
/** The alert record and the text message it is rendered to. */
module Message {
  import opened Wrappers
  import opened Courses

  /** One change notification: the section, its stored details and the
      freshly fetched ones, in that order. */
  datatype Alert = Alert(course: CourseId, previous: Option<CourseDetails>, current: Option<CourseDetails>)

  function DigitChar(d: nat): (ch: char)
    requires d < 10
    ensures '0' <= ch <= '9'
  {
    ('0' as int + d) as char
  }

  /** Decimal rendering of a natural number, most significant digit first. */
  function NatText(n: nat): (r: string)
    ensures |r| > 0
    ensures forall i :: 0 <= i < |r| ==> '0' <= r[i] <= '9'
    decreases n
  {
    if n < 10 then [DigitChar(n)] else NatText(n / 10) + [DigitChar(n % 10)]
  }

  /** Decimal rendering of an integer, with a leading minus sign when negative. */
  function IntText(n: int): string
  {
    if n < 0 then "-" + NatText(-n) else NatText(n)
  }

  /** The value of a string of decimal digits. */
  function DigitsValue(s: string): int
    decreases |s|
  {
    if |s| == 0 then 0 else DigitsValue(s[..|s| - 1]) * 10 + (s[|s| - 1] as int - '0' as int)
  }

  /** The value of an optionally signed decimal string. */
  function IntValue(s: string): int
  {
    if |s| > 0 && s[0] == '-' then -DigitsValue(s[1..]) else DigitsValue(s)
  }

  lemma {:induction false} NatTextRoundTrip(n: nat)
    ensures DigitsValue(NatText(n)) == n
    decreases n
  {
    if n >= 10 {
      var s := NatText(n / 10);
      var t := s + [DigitChar(n % 10)];
      assert NatText(n) == t;
      assert t[..|t| - 1] == s;
      NatTextRoundTrip(n / 10);
    }
  }

  /** The rendering of a count loses nothing: reading it back gives the count. */
  lemma IntTextRoundTrip(n: int)
    ensures IntValue(IntText(n)) == n
  {
    NatTextRoundTrip(if n < 0 then -n else n);
    if n < 0 {
      assert IntText(n)[1..] == NatText(-n);
    } else {
      assert NatText(n)[0] != '-';
    }
  }

  /** How a snapshot prints: "capacity=C actual=A remaining=R", or "None". */
  function DetailsText(d: Option<CourseDetails>): string
  {
    match d
    case None => "None"
    case Some(cd) => Fields(IntText(cd.capacity), IntText(cd.actual), IntText(cd.remaining))
  }

  function Fields(x: string, y: string, z: string): string
  {
    "capacity=" + x + " actual=" + y + " remaining=" + z
  }

  /** The part of the message that names the section. */
  function Heading(c: CourseId): string
  {
    "Course Check: " + c.subject + " " + c.number + " (" + c.crn + ") updated: "
  }

  /** The text sent for an alert: the section, then the stored details, an
      arrow, and the fetched details. */
  function Text(a: Alert): string
  {
    Heading(a.course) + DetailsText(a.previous) + " -> " + DetailsText(a.current)
  }

  /** The index of the first `ch` in `s`, or |s| when there is none. */
  function Find(s: string, ch: char): (i: nat)
    ensures i <= |s|
    ensures forall k :: 0 <= k < i ==> s[k] != ch
    ensures i < |s| ==> s[i] == ch
    decreases |s|
  {
    if |s| == 0 then 0 else if s[0] == ch then 0 else 1 + Find(s[1..], ch)
  }

  lemma FindAfter(x: string, ch: char, y: string)
    requires ch !in x
    ensures Find(x + [ch] + y, ch) == |x|
  {
    assert (x + [ch] + y)[|x|] == ch;
  }

  /** The rest of `s` after the prefix `prefix`, if `s` starts with it. */
  function After(s: string, prefix: string): Option<string>
  {
    if |prefix| <= |s| && s[..|prefix|] == prefix then Some(s[|prefix|..]) else None
  }

  lemma AfterPrefix(prefix: string, rest: string)
    ensures After(prefix + rest, prefix) == Some(rest)
  {
    assert (prefix + rest)[..|prefix|] == prefix;
  }

  /** `s` cut at the first `ch`: the part before it and the part after it. */
  function Split(s: string, ch: char): (string, string)
  {
    var i := Find(s, ch);
    if i < |s| then (s[..i], s[i + 1..]) else (s, "")
  }

  lemma SplitAt(x: string, ch: char, y: string)
    requires ch !in x
    ensures Split(x + [ch] + y, ch) == (x, y)
  {
    FindAfter(x, ch, y);
    assert (x + [ch] + y)[..|x|] == x;
    assert (x + [ch] + y)[|x| + 1..] == y;
  }

  lemma IntTextHasNo(n: int, ch: char)
    requires ch != '-' && !('0' <= ch <= '9')
    ensures ch !in IntText(n)
  {
    if n < 0 {
      assert forall k :: 0 <= k < |IntText(n)| ==> IntText(n)[k] == '-' || '0' <= IntText(n)[k] <= '9' by {
        assert IntText(n) == "-" + NatText(-n);
      }
    }
  }

  /** Reads a snapshot back from its printed form. */
  function ReadDetails(s: string): Option<CourseDetails>
  {
    match After(s, "capacity=")
    case None => None
    case Some(a) =>
      var (x, a') := Split(a, ' ');
      match After(a', "actual=")
      case None => None
      case Some(b) =>
        var (y, b') := Split(b, ' ');
        match After(b', "remaining=")
        case None => None
        case Some(z) => Some(CourseDetails(IntValue(x), IntValue(y), IntValue(z)))
  }

  lemma ReadFields(x: string, y: string, z: string)
    requires ' ' !in x && ' ' !in y
    ensures ReadDetails(Fields(x, y, z)) == Some(CourseDetails(IntValue(x), IntValue(y), IntValue(z)))
  {
    var rb := "remaining=" + z;
    var ra := "actual=" + (y + [' '] + rb);
    assert Fields(x, y, z) == "capacity=" + (x + [' '] + ra);
    AfterPrefix("capacity=", x + [' '] + ra);
    SplitAt(x, ' ', ra);
    AfterPrefix("actual=", y + [' '] + rb);
    SplitAt(y, ' ', rb);
    AfterPrefix("remaining=", z);
  }

  /** The printed form of a snapshot holds exactly that snapshot. */
  lemma DetailsTextRoundTrip(d: Option<CourseDetails>)
    ensures ReadDetails(DetailsText(d)) == d
  {
    if d.Some? {
      var cd := d.value;
      IntTextHasNo(cd.capacity, ' ');
      IntTextHasNo(cd.actual, ' ');
      ReadFields(IntText(cd.capacity), IntText(cd.actual), IntText(cd.remaining));
      IntTextRoundTrip(cd.capacity);
      IntTextRoundTrip(cd.actual);
      IntTextRoundTrip(cd.remaining);
    }
  }

  /** Reads the stored and fetched snapshots back from the text of an alert
      about section `c`. */
  function ReadText(c: CourseId, m: string): Option<(Option<CourseDetails>, Option<CourseDetails>)>
  {
    match After(m, Heading(c))
    case None => None
    case Some(body) =>
      var (p, q) := Split(body, '>');
      if |p| < 2 || |q| < 1 then None
      else Some((ReadDetails(p[..|p| - 2]), ReadDetails(q[1..])))
  }

  lemma DetailsTextHasNoArrow(d: Option<CourseDetails>)
    ensures '>' !in DetailsText(d)
  {
    if d.Some? {
      IntTextHasNo(d.value.capacity, '>');
      IntTextHasNo(d.value.actual, '>');
      IntTextHasNo(d.value.remaining, '>');
    }
  }

  /** The text of an alert carries both snapshots: for the section it names,
      the stored and the fetched details can be read back from it. */
  lemma TextRoundTrip(a: Alert)
    ensures ReadText(a.course, Text(a)) == Some((a.previous, a.current))
  {
    var p, q := DetailsText(a.previous), DetailsText(a.current);
    var body := (p + " -") + ['>'] + (" " + q);
    assert Text(a) == Heading(a.course) + body;
    AfterPrefix(Heading(a.course), body);
    DetailsTextHasNoArrow(a.previous);
    assert '>' !in p + " -";
    SplitAt(p + " -", '>', " " + q);
    assert (p + " -")[..|p|] == p;
    assert (" " + q)[1..] == q;
    DetailsTextRoundTrip(a.previous);
    DetailsTextRoundTrip(a.current);
  }
}

=== FILE: scheduler.dfy ===
/** The guarded cycle and the schedule that repeats it: an eager first run,
    then one run per tick, each guarded so that a failing cycle is logged and
    the next one still runs. */
module Scheduler {
  import opened Wrappers
  import opened Courses
  import opened Detector
  import opened Message
  import opened Cycle

  /** The outside world during one run: the login result and one probe per
      configured section. */
  datatype Tick = Tick(loginOk: bool, probes: seq<Probe>)

  /** What a sequence of runs leaves: the store, the alerts sent and the errors
      written to the error log, all in order. */
  datatype History = History(store: Store, alerts: seq<Alert>, errors: seq<CycleError>)

  /** Every tick has a probe for each configured section. */
  predicate Fits(config: Config, ticks: seq<Tick>)
  {
    forall t :: t in ticks ==> |t.probes| == |config.courses|
  }

  /** One guarded cycle: it always returns, keeps the effects the cycle made,
      and logs at most one error, the one the cycle stopped with. */
  function SafeCheck(policy: Policy, config: Config, tick: Tick, store: Store): (r: History)
    requires |tick.probes| == |config.courses|
    ensures |r.errors| <= 1
    // a failed login is logged and nothing else happens
    ensures !tick.loginOk ==> r == History(store, [], [LoginFailed])
    ensures tick.loginOk ==> LoginFailed !in r.errors
    // only the configured sections' entries can change, and none disappears
    ensures store.Keys <= r.store.Keys
    ensures forall k :: k !in KeysOf(config.term, config.courses, |config.courses|) ==> SameEntry(store, r.store, k)
    // a run that logs nothing has stored every section's fetched details
    ensures r.errors == [] ==>
      forall i :: 0 <= i < |config.courses| && LastWriter(config.term, config.courses, |config.courses|, i) ==>
        var k := Key(config.term, config.courses[i]);
        tick.probes[i].fetch.Fetched? && k in r.store && r.store[k] == Course(config.courses[i], tick.probes[i].fetch.details)
    ensures |r.alerts| <= |config.courses|
    // with the intended policy, a run whose login and fetches succeed logs nothing
    ensures policy == Intended && tick.loginOk && (forall p :: p in tick.probes ==> p.fetch.Fetched?) ==> r.errors == []
  {
    var c := CheckCycle(policy, config, tick.loginOk, tick.probes, store);
    CycleEffects(policy, config, tick.loginOk, tick.probes, store);
    History(c.store, c.alerts, if c.error.Some? then [c.error.value] else [])
  }

  /** What the guard logs once login succeeds: a run that logs nothing got
      past every section that is the first with its key, and a run that logs
      an error got through some prefix of the sections exactly as a completed
      run over that prefix would, then raised that error at the next section. */
  lemma SafeCheckLogsFailures(policy: Policy, config: Config, tick: Tick, store: Store)
    requires |tick.probes| == |config.courses|
    ensures var r := SafeCheck(policy, config, tick, store);
      && (tick.loginOk && r.errors == [] ==>
            forall i :: 0 <= i < |config.courses|
              && (forall j :: 0 <= j < i ==> Key(config.term, config.courses[j]) != Key(config.term, config.courses[i]))
              ==> Step(policy, config.term, config.courses[i], tick.probes[i], store).Wrote?)
      && (tick.loginOk && r.errors != [] ==>
            exists w :: 0 <= w < |config.courses|
              && Run(policy, config.term, config.courses[..w], tick.probes[..w], store) == Outcome(r.store, r.alerts, w, None)
              && Step(policy, config.term, config.courses[w], tick.probes[w], r.store) == Raised(r.errors[0]))
  {
    if tick.loginOk {
      var c := Run(policy, config.term, config.courses, tick.probes, store);
      assert CheckCycle(policy, config, tick.loginOk, tick.probes, store) == c;
      forall i | 0 <= i < |config.courses|
        && (forall j :: 0 <= j < i ==> Key(config.term, config.courses[j]) != Key(config.term, config.courses[i]))
        && Step(policy, config.term, config.courses[i], tick.probes[i], store).Raised?
        ensures c.error.Some?
      {
        BlockedSectionStopsRun(policy, config.term, config.courses, tick.probes, store, i);
      }
      if c.error.Some? {
        StopKeepsPrefix(policy, config.term, config.courses, tick.probes, store);
        var w := c.written;
        assert Run(policy, config.term, config.courses[..w], tick.probes[..w], store) == Outcome(c.store, c.alerts, w, None);
      }
    }
  }

  /** The runs of the schedule, one per tick, each starting from the store the
      previous one left. */
  function Schedule(policy: Policy, config: Config, store: Store, ticks: seq<Tick>): (r: History)
    requires Fits(config, ticks)
    ensures |r.errors| <= |ticks|
    ensures store.Keys <= r.store.Keys
    ensures forall k :: k !in KeysOf(config.term, config.courses, |config.courses|) ==> SameEntry(store, r.store, k)
    decreases |ticks|
  {
    if |ticks| == 0 then History(store, [], [])
    else
      var h := SafeCheck(policy, config, ticks[0], store);
      var rest := Schedule(policy, config, h.store, ticks[1..]);
      History(rest.store, h.alerts + rest.alerts, h.errors + rest.errors)
  }

  /** A schedule of one tick is one guarded run. */
  lemma ScheduleSingle(policy: Policy, config: Config, store: Store, t: Tick)
    requires |t.probes| == |config.courses|
    ensures Schedule(policy, config, store, [t]) == SafeCheck(policy, config, t, store)
  {
    assert [t][1..] == [];
  }

  /** The schedule is a fold: running the ticks of `a` and then those of `b`
      is running `b` from the store `a` left, with the alerts and the errors
      of both in order. */
  lemma {:induction false} ScheduleAppend(policy: Policy, config: Config, store: Store, a: seq<Tick>, b: seq<Tick>)
    requires Fits(config, a) && Fits(config, b)
    ensures Fits(config, a + b)
    ensures var ha := Schedule(policy, config, store, a);
      var hb := Schedule(policy, config, ha.store, b);
      Schedule(policy, config, store, a + b) == History(hb.store, ha.alerts + hb.alerts, ha.errors + hb.errors)
    decreases |a|
  {
    if |a| == 0 {
      assert a + b == b;
      var hb := Schedule(policy, config, store, b);
      assert [] + hb.alerts == hb.alerts && [] + hb.errors == hb.errors;
    } else {
      var h := SafeCheck(policy, config, a[0], store);
      assert (a + b)[0] == a[0] && (a + b)[1..] == a[1..] + b;
      ScheduleAppend(policy, config, h.store, a[1..], b);
      var ha := Schedule(policy, config, h.store, a[1..]);
      var hb := Schedule(policy, config, ha.store, b);
      Associative(h.alerts, ha.alerts, hb.alerts);
      Associative(h.errors, ha.errors, hb.errors);
    }
  }

  /** A non-empty sequence is its front followed by its last element. */
  lemma SplitLast<T>(s: seq<T>)
    requires |s| > 0
    ensures s == s[..|s| - 1] + [s[|s| - 1]]
  {
  }

  /** Concatenation regroups freely. */
  lemma Associative<T>(x: seq<T>, y: seq<T>, z: seq<T>)
    ensures x + (y + z) == (x + y) + z
  {
  }

  /** When every login fails, every run logs the failed login and nothing is
      written or sent. */
  lemma {:induction false} ScheduleLoginsFail(policy: Policy, config: Config, store: Store, ticks: seq<Tick>)
    requires Fits(config, ticks)
    requires forall t :: t in ticks ==> !t.loginOk
    ensures var r := Schedule(policy, config, store, ticks);
      r.store == store && r.alerts == [] && r.errors == seq(|ticks|, _ => LoginFailed)
    decreases |ticks|
  {
    if |ticks| > 0 {
      assert ticks[0] in ticks;
      ScheduleLoginsFail(policy, config, store, ticks[1..]);
      var rest := Schedule(policy, config, store, ticks[1..]);
      assert [LoginFailed] + rest.errors == seq(|ticks|, _ => LoginFailed);
    }
  }

  /** With the intended policy, runs whose login and fetches succeed never fail. */
  lemma {:induction false} ScheduleIntendedClean(config: Config, store: Store, ticks: seq<Tick>)
    requires Fits(config, ticks)
    requires forall t :: t in ticks ==> t.loginOk && forall p :: p in t.probes ==> p.fetch.Fetched?
    ensures Schedule(Intended, config, store, ticks).errors == []
    decreases |ticks|
  {
    if |ticks| > 0 {
      assert ticks[0] in ticks;
      var h := SafeCheck(Intended, config, ticks[0], store);
      ScheduleIntendedClean(config, h.store, ticks[1..]);
    }
  }

  /** A section whose processing raises against its stored entry, on every
      tick, makes every run fail and keeps that entry forever. */
  lemma {:induction false} BlockedSectionWedges(policy: Policy, config: Config, store: Store, ticks: seq<Tick>, i: nat)
    requires Fits(config, ticks)
    requires i < |config.courses|
    requires forall j :: 0 <= j < i ==> Key(config.term, config.courses[j]) != Key(config.term, config.courses[i])
    requires forall t :: t in ticks ==> Step(policy, config.term, config.courses[i], t.probes[i], store).Raised?
    ensures var r := Schedule(policy, config, store, ticks);
      |r.errors| == |ticks| && SameEntry(store, r.store, Key(config.term, config.courses[i]))
    decreases |ticks|
  {
    if |ticks| > 0 {
      var k := Key(config.term, config.courses[i]);
      var t := ticks[0];
      var c := CheckCycle(policy, config, t.loginOk, t.probes, store);
      if t.loginOk {
        BlockedSectionStopsRun(policy, config.term, config.courses, t.probes, store, i);
      }
      assert c.error.Some? && SameEntry(store, c.store, k);
      forall u | u in ticks[1..]
        ensures Step(policy, config.term, config.courses[i], u.probes[i], c.store).Raised?
      {
        StepLocal(policy, config.term, config.courses[i], u.probes[i], store, c.store);
      }
      BlockedSectionWedges(policy, config, c.store, ticks[1..], i);
    }
  }

  /** As written, once a section is stored without details, every later run
      fails at that section or before it, and the stored entry never changes. */
  lemma AbsentSnapshotWedges(config: Config, store: Store, ticks: seq<Tick>, i: nat)
    requires Fits(config, ticks)
    requires i < |config.courses|
    requires Key(config.term, config.courses[i]) in store
    requires store[Key(config.term, config.courses[i])].details.None?
    ensures var r := Schedule(AsWritten, config, store, ticks);
      |r.errors| == |ticks| && SameEntry(store, r.store, Key(config.term, config.courses[i]))
  {
    var j := FirstWithKey(config.term, config.courses, i);
    BlockedSectionWedges(AsWritten, config, store, ticks, j);
  }

  /** The first section sharing the key of section `i`. */
  lemma FirstWithKey(term: string, cs: seq<CourseId>, i: nat) returns (j: nat)
    requires i < |cs|
    ensures j <= i && Key(term, cs[j]) == Key(term, cs[i])
    ensures forall l :: 0 <= l < j ==> Key(term, cs[l]) != Key(term, cs[i])
  {
    j := 0;
    while Key(term, cs[j]) != Key(term, cs[i])
      invariant j <= i
      invariant forall l :: 0 <= l < j ==> Key(term, cs[l]) != Key(term, cs[i])
      decreases i - j
    {
      j := j + 1;
    }
  }

  /** As written, while texts cannot be sent (no notifier configured), a
      changed section makes every run fail before its write, so the stale
      entry stays and the same change is detected again on the next run. */
  lemma FailedSendWedges(config: Config, store: Store, ticks: seq<Tick>, i: nat)
    requires Fits(config, ticks)
    requires i < |config.courses|
    requires forall j :: 0 <= j < i ==> Key(config.term, config.courses[j]) != Key(config.term, config.courses[i])
    requires Key(config.term, config.courses[i]) in store
    requires forall t :: t in ticks ==>
      && !t.probes[i].delivered
      && t.probes[i].fetch != Fetched(store[Key(config.term, config.courses[i])].details)
    ensures var r := Schedule(AsWritten, config, store, ticks);
      |r.errors| == |ticks| && SameEntry(store, r.store, Key(config.term, config.courses[i]))
  {
    BlockedSectionWedges(AsWritten, config, store, ticks, i);
  }

  /** With the intended comparison and best-effort sending, every run whose
      login and fetches succeed completes, and afterwards each section's key
      holds the details of the latest run, whatever was stored before. */
  lemma IntendedRunsRecover(config: Config, store: Store, ticks: seq<Tick>, i: nat)
    requires Fits(config, ticks)
    requires |ticks| > 0
    requires forall t :: t in ticks ==> t.loginOk && forall p :: p in t.probes ==> p.fetch.Fetched?
    requires i < |config.courses| && LastWriter(config.term, config.courses, |config.courses|, i)
    ensures var r := Schedule(Intended, config, store, ticks);
      && r.errors == []
      && Key(config.term, config.courses[i]) in r.store
      && r.store[Key(config.term, config.courses[i])] == Course(config.courses[i], ticks[|ticks| - 1].probes[i].fetch.details)
  {
    ScheduleIntendedClean(config, store, ticks);
    var n := |ticks| - 1;
    var last := ticks[n];
    SplitLast(ticks);
    assert last in ticks;
    ScheduleAppend(Intended, config, store, ticks[..n], [last]);
    ScheduleSingle(Intended, config, Schedule(Intended, config, store, ticks[..n]).store, last);
  }

  /** As written: a section not found on its first run is stored without
      details; on the next run its seats are found, yet the run fails at the
      comparison and the entry stays without details. */
  lemma NotFoundThenFoundFails()
    ensures var c := CourseId("1000", "COMP", "12345");
      var config := Config("202301", [c]);
      var ticks := [Tick(true, [Probe(Fetched(None), true)]),
                    Tick(true, [Probe(Fetched(Some(CourseDetails(30, 29, 1))), true)])];
      var r := Schedule(AsWritten, config, map[], ticks);
      && r.errors == [CompareFailed(Key("202301", c))]
      && r.store == map[Key("202301", c) := Course(c, None)]
      && r.alerts == []
  {
    var c := CourseId("1000", "COMP", "12345");
    var config := Config("202301", [c]);
    var k := Key("202301", c);
    var first := Tick(true, [Probe(Fetched(None), true)]);
    var second := Tick(true, [Probe(Fetched(Some(CourseDetails(30, 29, 1))), true)]);
    var s1 := map[k := Course(c, None)];
    assert Step(AsWritten, "202301", c, first.probes[0], map[]) == Wrote(s1, None);
    assert Run(AsWritten, "202301", [c][1..], first.probes[1..], s1) == Outcome(s1, [], 0, None);
    assert Run(AsWritten, "202301", [c], first.probes, map[]) == Outcome(s1, [], 1, None);
    var h1 := SafeCheck(AsWritten, config, first, map[]);
    assert h1 == History(map[k := Course(c, None)], [], []);
    assert Step(AsWritten, "202301", c, second.probes[0], s1) == Raised(CompareFailed(k));
    var h2 := SafeCheck(AsWritten, config, second, h1.store);
    assert h2 == History(h1.store, [], [CompareFailed(k)]);
    assert [first, second][1..] == [second];
  }
}

=== FILE: wrappers.dfy ===
/** The optional value used for snapshots that may hold no details. */
module Wrappers {

  /** A value that may be absent. */
  datatype Option<+T> = None | Some(value: T)
}
